=== FILE: README.md ===
# NoteTaker: a verified model of the note store and the editor state

NoteTaker is an Electron desktop note-taking application. The main process owns an
electron-store with two keys, `notes` (a list of Note records) and `theme` ("dark" or
"light"), and answers the renderer's requests: `get-notes`, `save-note`, `delete-note`,
`export-note`, `get-theme`, `set-theme` and `toggle-theme`. The renderer's `NoteTaker`
class keeps an in-memory note list, the current note, an `isModified` flag and the two
editor fields. It saves on request, on note switch and from two auto-save timers. It also
filters the list by a search term and shows word and character counts.

This project models that core as immutable datatypes and pure functions:

- `options.dfy` (`Options`): an optional value, for a missing store key or a null current note.
- `seqs.dfy` (`Seqs`): `Array.prototype.filter`, with a subsequence predicate for order preservation and the count of copies it keeps.
- `notes.dfy` (`Notes`): the Note record, `findIndex` by id, the upsert of `save-note` and the removal of `delete-note`.
- `text.dfy` (`Text`): JavaScript's `\s` class, `trim`, `split(/\s+/)`, word runs, UTF-16 `length`, ASCII `toLowerCase`, `includes`, the extension-stripping regular expression `/\.[^/.]+$/`, and number printing.
- `controller.dfy` (`Controller`): the store and every `ipcMain.handle` handler of the core, plus the Theme menu's toggle rule.
- `notetaker.dfy` (`NoteTaker`): the renderer's state transitions over `App(store, editor)`, with the invariant `Wf` that they preserve: ids are unique in both lists, and the current note is one of the listed notes.

Host interactions are inputs. A dialog answer is a `SaveDialog`, a file-system write is a
`WriteOutcome`, and `confirm()` is a boolean. Whether a call to the main process succeeded
is the flag `ok`, and the clock is an opaque `now` string. `generateId` is a `freshId`
parameter, and the properties that need it to be unused are stated under `FreshId`.

In the renderer, `currentNote` is the same object as an entry of `this.notes`, so a save
changes that entry in place. Ids are unique (`Wf`), so the model finds that entry by id.
A save upserts the committed note into the in-memory list. Selecting a note with the
current note's id selects the current, possibly just saved, value.

The model follows the renderer's `window.electronAPI` branch. After a confirmed delete, the
in-memory list becomes the list that `delete-note` returns. In-memory notes that were never
saved therefore disappear along with the deleted one.

The title and content fields are DOM inputs. Content put into the textarea reads back with
its line breaks normalised, CR LF and lone CR both becoming LF (`Text.FieldText`), so a
note's content passes through that normalisation whenever it is loaded or typed.

Each save is atomic. `selectNote` clears `isModified` even when its guarded save failed, and
the model keeps that. So a failed save during a note switch leaves the edit in memory only,
and no timer retries it.

## Model

| member | source | states |
|---|---|---|
| `Seqs.Filter` | src/main.js:244 | every element of the result is an input element that passes the test, every passing input element is in the result, and the result is no longer than the input |
| `Seqs.FilterMultiplicity` | src/main.js:244 | the result holds as many copies of a passing element as the input does, and none of a failing one |
| `Seqs.FilterIsSubseq` | src/main.js:244 | the filtered list keeps the survivors in their original relative order |
| `Seqs.FilterKeepsAll` | src/main.js:244 | filtering a list whose every element passes returns the list unchanged |
| `Notes.FindIndex` | src/main.js:230 | returns the first position whose note has the id, and none exactly when no note has it |
| `Notes.Upsert` | src/main.js:229-236 | with the id present, the first entry with that id becomes the note, length and every other position unchanged; with it absent, the note is appended after the unchanged old list; the set of ids grows by the note's id only, and unique ids stay unique |
| `Notes.UpsertIdempotent` | src/main.js:228-240 | saving the same note twice leaves the list as one save does |
| `Notes.UpsertLastWriteWins` | src/main.js:228-240 | saving `b` after `a` with the same id gives the list that saving only `b` gives |
| `Notes.UpsertBehindHead` | src/main.js:229-236 | saving a note whose id differs from the first entry's leaves that entry first and upserts the rest of the list |
| `Notes.RemoveId` | src/main.js:244 | no entry with the id remains; every other entry survives in order with all its copies, and no copy of an entry with the id does; an absent id leaves the list unchanged; unique ids stay unique |
| `Text.DropWhile` | src/renderer.js:419 | returns a suffix whose dropped prefix satisfies the test and whose first character does not |
| `Text.Trim` | src/renderer.js:419 | the trimmed text is a contiguous piece of the input with only whitespace before and after it, and is empty or starts and ends with a non-whitespace character |
| `Text.Window` | src/renderer.js:419 | a prefix of a suffix of the text, with whitespace cut at both ends, is a piece of the text with only whitespace around it |
| `Text.SplitFrom` | src/renderer.js:419 | `split(/\s+/)` yields one piece more than the text has whitespace runs |
| `Text.SpaceRunsBetweenWords` | src/renderer.js:419 | in text that starts and ends with a word there is one word more than whitespace gaps |
| `Text.RunsOfTrim` | src/renderer.js:419 | trimming does not change the number of words |
| `Text.WordCount` | src/renderer.js:419 | `trim() ? trim().split(/\s+/).length : 0` equals the number of maximal non-whitespace runs, and is 0 exactly for empty or whitespace-only text |
| `Text.Utf16Length` | src/renderer.js:420 | `length` is the number of UTF-16 code units of the text's encoding; it lies between the number of characters and twice that, and equals it exactly when no character lies outside the Basic Multilingual Plane |
| `Text.Utf16Encode` | src/renderer.js:420 | every code unit of the encoding is a 16-bit value |
| `Text.Utf16Decode` | src/renderer.js:420 | decoding code units never yields more characters than there are units |
| `Text.Utf16RoundTrip` | src/renderer.js:420 | decoding the encoding of any text gives the text back, so each character's surrogate pair is exact |
| `Text.FieldText` | src/renderer.js:244 | the editor's content field holds no CR, is no longer than the text put in, and text without CR reads back unchanged |
| `Text.FieldTextUnits` | src/renderer.js:244 | a CR LF pair reads back as one LF, a lone CR as LF, and any other single character as itself |
| `Text.FieldTextAppend` | src/renderer.js:244 | text cut anywhere except inside a CR LF pair reads back as the two pieces read back one after the other; with the single-character cases this fixes the reading of every text |
| `Text.FieldTextIdempotent` | src/renderer.js:244 | putting the field's own value back into it changes nothing |
| `Text.FieldTextExamples` | src/renderer.js:244 | "a\r\nb" and "a\rb" read back as "a\nb", "a\r\r\nb" as "a\n\nb", and "a\nb" unchanged |
| `Text.Contains` | src/renderer.js:381-382 | `includes` holds exactly when the needle occurs at some position |
| `Text.ExtensionStart` | src/renderer.js:357 | finds the position where `/\.[^/.]+$/` matches, and reports none exactly when no position matches |
| `Text.StripExtension` | src/renderer.js:357 | the name is cut at the match of `/\.[^/.]+$/` when there is one and returned unchanged otherwise |
| `Text.StripExtensionExamples` | src/renderer.js:357 | "draft.md" gives "draft", "a.b.c" gives "a.b", "noext" and "file." are unchanged, a dot before a slash is no extension, ".bashrc" gives "" |
| `Text.Decimal` | src/renderer.js:422-423 | a count prints as decimal digits with no leading zero |
| `Text.DecimalRoundTrip` | src/renderer.js:422-423 | reading the printed digits back gives the count |
| `Text.CountLabel` | src/renderer.js:422-423 | the label is the count, a space and the noun, plus "s" unless the count is exactly 1 |
| `Controller.GetNotes` | src/main.js:224-226 | `get-notes` replies with the stored list, or with the empty list while the key has never been written |
| `Controller.GetTheme` | src/main.js:12-14 | `getStoredTheme`, and so `get-theme`, reads the stored theme, or "dark" while the key has never been written |
| `Controller.DefaultThemeIsDark` | src/main.js:12-14 | with nothing stored, the theme reads "dark" and the note list reads empty |
| `Controller.SetStoredTheme` | src/main.js:16-17 | after storing a theme, `get-theme` returns it, and the notes are unchanged |
| `Controller.SetTheme` | src/main.js:275-281 | succeeds exactly for "dark" and "light": stores the theme and replies with it; any other value gets "Invalid theme" and leaves the store untouched |
| `Controller.NextTheme` | src/main.js:285 | the next theme is always valid and differs from the current one; it is "light" exactly when the current one is "dark" |
| `Controller.NextThemeInvolution` | src/main.js:285 | toggling twice restores any valid theme |
| `Controller.ToggleTheme` | src/main.js:284-288 | the reply is a valid theme different from the old one, is what `get-theme` then returns, and leaves the notes alone |
| `Controller.ToggleThemeTwice` | src/main.js:284-288 | two `toggle-theme` calls restore a dark or light theme |
| `Controller.MenuToggleTheme` | src/main.js:163-166 | the menu's toggle leaves the store exactly as `toggle-theme` does |
| `Controller.SaveNote` | src/main.js:228-240 | replies with its input, whose note is then in the stored list; the list is upserted by id, unique ids stay unique, the theme is untouched |
| `Controller.DeleteNote` | src/main.js:242-247 | the reply is the new stored list, holding no note with the id and every other note in its old order with all its copies; an absent id leaves the list unchanged |
| `Controller.ExportFileName` | src/main.js:251 | the suggested name is the title, or "Untitled" when the title is empty, followed by ".txt" |
| `Controller.ExportNote` | src/main.js:249-268 | a cancelled dialog writes nothing and replies cancelled; otherwise the content is written to the chosen path, and the reply is success with that path exactly when the write succeeds, or failure with the write's message |
| `NoteTaker.Startup` | src/renderer.js:192-205 | the renderer starts with the stored list, no current note and no edits, and is well formed when stored ids are unique |
| `NoteTaker.SavedTitle` | src/renderer.js:284 | the saved title is the title field when that is non-empty and "Untitled Note" when it is empty |
| `NoteTaker.SaveCurrentNote` | src/renderer.js:281-306 | a no-op without a current note; otherwise the note takes the title field, or "Untitled Note" if it is empty, plus the content field and the new time, and replaces its entry in the in-memory list, every other entry unchanged; only a successful save stores it, clears `isModified` and reloads the fields, the content as the textarea reports it, and a failed one leaves store, flag and fields as they were; keeps the state well formed and the list's length |
| `NoteTaker.SelectNote` | src/renderer.js:236-259 | saves first exactly when modified with a current note, and then both the store and the in-memory list are those of that save, otherwise both are unchanged; afterwards the chosen note is current, its fields are loaded, the content as the textarea reports it, and `isModified` is false; selecting a listed note keeps the state well formed |
| `NoteTaker.CreateNewNote` | src/renderer.js:261-279 | pending edits are saved first and the store is what that save leaves; the new note is current and unmodified; with a fresh id the list is a blank note followed by the list after that save, the fields are empty and the state stays well formed |
| `NoteTaker.DeleteCurrentNote` | src/renderer.js:308-333 | a no-op without a current note, without confirmation or on failure; otherwise the stored list becomes the old one with every note of that id removed and the in-memory list is that list, and there is no current note, no edit and empty fields; keeps the state well formed |
| `NoteTaker.ImportNote` | src/renderer.js:354-367 | pending edits of the old note are saved first; the imported note is current, and a successful save upserts it into the list that first save stored, a failed one leaves the store as it was; the theme is untouched; with a fresh id the in-memory list is the imported note followed by the list after the first save, the note is titled by the file name without its extension and holds the file's content as the textarea reports it, line breaks normalised to LF, and the state stays well formed |
| `NoteTaker.SelectPrepended` | src/renderer.js:363-365 | selecting a note just put at the front saves the old note's pending edits behind it and makes the new note current |
| `NoteTaker.SaveFront` | src/renderer.js:366 | saving the note at the front of the list replaces exactly that entry |
| `NoteTaker.EditNote` | src/renderer.js:392-394 | an edit sets `isModified` and the fields, the content as the textarea reports it, changes nothing else and keeps the state well formed |
| `NoteTaker.AutoSave` | src/renderer.js:396-415 | the debounce and periodic callbacks save only when modified with a current note, and a successful save clears `isModified`; both keep the state well formed |
| `NoteTaker.FilterNotes` | src/renderer.js:379-390 | keeps exactly the notes whose lower-cased title or content contains the lower-cased term, in list order and with every copy; an empty term keeps every note |
| `NoteTaker.SearchKeepsCopies` | src/renderer.js:380-383 | the search keeps every copy of a matching note and no copy of any other |
| `NoteTaker.EmptySearchKeepsAll` | src/renderer.js:380-383 | every note matches the empty search term |
| `NoteTaker.UpdateStats` | src/renderer.js:417-424 | the word count is the number of maximal non-whitespace runs (0 for blank content, by `Text.WordCount`); the character count is the UTF-16 length; labels are plural unless the count is 1 |
| `NoteTaker.ExportCurrentNote` | src/renderer.js:335-352 | nothing is exported without a current note; otherwise the in-memory note itself, not the editor fields, goes to `export-note`: the suggested name comes from its title and its content is what is written; the reply is success exactly when a path was chosen and the write succeeded, and failure carries the write's message |
| `NoteTaker.PrependFreshKeepsWf` | src/renderer.js:275 | putting a note with an unused id at the front keeps ids unique |
| `NoteTaker.EditThenAutoSave` | src/renderer.js:392-415 | after an edit, a successful timer save stores exactly the edited title and content as the fields report them, and a later callback with no new edit saves nothing |
| `NoteTaker.SaveUntitledScenario` | src/renderer.js:281-290 | saving note "a" with an empty title and content "hi" stores title "Untitled Note", content "hi" and the new time |
| `NoteTaker.ImportDraftScenario` | src/renderer.js:354-367 | importing "draft.md" stores a note titled "draft" with the file's content as the textarea reports it |
| `NoteTaker.ImportWindowsTextScenario` | src/renderer.js:354-367 | importing "draft.md" holding "a\r\nb" stores content "a\nb" |

## Left out

- Window and menu construction, the save and open dialogs, `fs.readFile`/`fs.writeFile` and `path.basename` are host APIs. Dialog answers and write outcomes are inputs, and the import's file name and content are the inputs of `ImportNote`.
- The `theme-updated` broadcasts (src/main.js:20-22, 55-58) are messages to a window, and the model has no window.
- The Theme menu's Dark and Light radio items (src/main.js:169-180) call `setStoredTheme` with a constant, which is `Controller.SetStoredTheme`.
- The renderer's `toggleTheme`, `initializeTheme`, `applyTheme` and `updateEditorThemeStyles` only restyle the page around the `toggle-theme` and `get-theme` calls.
- src/preload.js forwards each call name for name and has no logic of its own.
- DOM work is not modelled: `renderNotesList`, `createNoteListItem`, `escapeHtml`, `showSaveIndicator`, `updateLastSaved`, `updateWelcomeVisibility`, `downloadAsFile` and `handleKeyboardShortcuts`. `confirm()` is the `confirmed` input.
- The fallback branches for a page without `window.electronAPI`, which use `localStorage`, are not modelled.
- `generateId` reads the clock and a random source, so it becomes the `freshId` input. Its uniqueness is the `FreshId` assumption.
- Timer durations (3000 ms and 30000 ms), the clearing of the debounce timer and asynchronous interleaving are left out. In particular the unawaited `saveCurrentNote()` calls inside `selectNote`, `createNewNote` and `importNote` are treated as completing before the next step. One `ok` flag decides every save attempt within one event.
- Timestamps are opaque strings supplied as `now`. `toISOString` and `toLocaleDateString` are not modelled.
- `Text.Lower` lower-cases ASCII letters only, whereas `toLowerCase` applies full Unicode case mapping.
- JavaScript strings may hold lone surrogates, but Dafny characters are Unicode scalar values, so such strings cannot be represented.
- The title field's element is declared in the page markup, which is not part of this model. The model treats its value as the text put into it and does not strip line breaks, as a single-line `<input>` would.
- Note fields are always strings. A missing `title` or `content` from a malformed stored record is not modelled.
- NoteTaker.CreateNewNote: the in-memory list, the blank front note and the empty fields are stated only for a well-formed state and a fresh id, which is what the source assumes of `generateId`; the store is stated for every state.
- NoteTaker.ImportNote: the in-memory list and the imported note's title and content are stated only for a well-formed state and a fresh id, for the same reason; the store is stated for every state.

=== FILE: controller.dfy ===
/**
 * The main process's request handlers (`ipcMain.handle`) and the menu's theme toggle,
 * over an electron-store holding two keys, `notes` and `theme`.
 */
module Controller {
  import opened Options
  import opened Seqs
  import opened Notes

  /** The persistent key-value store; a key that was never written reads as `None`. */
  datatype Store = Store(notes: Option<seq<Note>>, theme: Option<string>)

  const EmptyStore: Store := Store(None, None)

  const DefaultTheme: string := "dark"

  /** A handler's effect: the store after the call and the value sent back to the renderer. */
  datatype Handled<R> = Handled(store: Store, reply: R)

  /** `get-notes`: `store.get('notes', [])`. */
  function GetNotes(st: Store): (r: seq<Note>)
    ensures st.notes.None? ==> r == []
    ensures st.notes.Some? ==> r == st.notes.value
  {
    if st.notes.Some? then st.notes.value else []
  }

  /** `getStoredTheme`, which also answers `get-theme`: `store.get('theme', 'dark')`. */
  function GetTheme(st: Store): (r: string)
    ensures st.theme.None? ==> r == DefaultTheme
    ensures st.theme.Some? ==> r == st.theme.value
  {
    if st.theme.Some? then st.theme.value else DefaultTheme
  }

  predicate ValidTheme(t: string) {
    t == "dark" || t == "light"
  }

  /** With nothing stored, the theme reads as dark. */
  lemma DefaultThemeIsDark()
    ensures GetTheme(EmptyStore) == "dark"
    ensures GetNotes(EmptyStore) == []
  {
  }

  /** `setStoredTheme`: a later `get-theme` answers the stored value; the notes are untouched. */
  function SetStoredTheme(st: Store, theme: string): (r: Store)
    ensures GetTheme(r) == theme
    ensures GetNotes(r) == GetNotes(st)
  {
    st.(theme := Some(theme))
  }

  /** The reply of `set-theme`: `{success: true, theme}` or `{success: false, error}`. */
  datatype ThemeReply = ThemeSet(theme: string) | ThemeRefused(error: string)

  /** `set-theme`: accept exactly "dark" or "light"; anything else is refused and changes nothing. */
  function SetTheme(st: Store, theme: string): (r: Handled<ThemeReply>)
    ensures r.reply.ThemeSet? <==> ValidTheme(theme)
    ensures ValidTheme(theme) ==>
              && r.reply == ThemeSet(theme)
              && GetTheme(r.store) == theme
              && GetNotes(r.store) == GetNotes(st)
    ensures !ValidTheme(theme) ==> r.store == st && r.reply == ThemeRefused("Invalid theme")
  {
    if theme == "dark" || theme == "light" then Handled(SetStoredTheme(st, theme), ThemeSet(theme))
    else Handled(st, ThemeRefused("Invalid theme"))
  }

  /** The toggle rule shared by `toggle-theme` and the Theme menu: dark becomes light, anything else dark. */
  function NextTheme(current: string): (r: string)
    ensures ValidTheme(r)
    ensures r != current
    ensures current == "dark" <==> r == "light"
  {
    if current == "dark" then "light" else "dark"
  }

  /** Toggling twice restores any valid theme. */
  lemma NextThemeInvolution(t: string)
    requires ValidTheme(t)
    ensures NextTheme(NextTheme(t)) == t
  {
  }

  /** `toggle-theme`: store the other theme and reply with it. */
  function ToggleTheme(st: Store): (r: Handled<string>)
    ensures ValidTheme(r.reply)
    ensures GetTheme(r.store) == r.reply
    ensures r.reply != GetTheme(st)
    ensures GetTheme(st) == "dark" <==> r.reply == "light"
    ensures GetNotes(r.store) == GetNotes(st)
  {
    var next := NextTheme(GetTheme(st));
    Handled(SetStoredTheme(st, next), next)
  }

  /** Two `toggle-theme` calls in a row restore the theme, whenever it was dark or light to begin with. */
  lemma ToggleThemeTwice(st: Store)
    requires ValidTheme(GetTheme(st))
    ensures GetTheme(ToggleTheme(ToggleTheme(st).store).store) == GetTheme(st)
  {
    NextThemeInvolution(GetTheme(st));
  }

  /** The menu's "Toggle Dark/Light" item: the same rule as `toggle-theme`, without a reply. */
  function MenuToggleTheme(st: Store): (r: Store)
    ensures r == ToggleTheme(st).store
  {
    SetStoredTheme(st, if GetTheme(st) == "dark" then "light" else "dark")
  }

  /** `save-note`: upsert by id into the stored list and echo the note back. */
  function SaveNote(st: Store, note: Note): (r: Handled<Note>)
    ensures r.reply == note
    ensures note in GetNotes(r.store)
    ensures GetNotes(r.store) == Upsert(GetNotes(st), note)
    ensures UniqueIds(GetNotes(st)) ==> UniqueIds(GetNotes(r.store))
    ensures GetTheme(r.store) == GetTheme(st)
  {
    Handled(st.(notes := Some(Upsert(GetNotes(st), note))), note)
  }

  /** `delete-note`: drop every entry with the id, store the rest and reply with it. */
  function DeleteNote(st: Store, id: Id): (r: Handled<seq<Note>>)
    ensures r.reply == GetNotes(r.store)
    ensures !HasId(r.reply, id)
    ensures forall i :: 0 <= i < |GetNotes(st)| && GetNotes(st)[i].id != id ==> GetNotes(st)[i] in r.reply
    ensures forall i :: 0 <= i < |r.reply| ==> r.reply[i] in GetNotes(st)
    ensures IsSubseq(r.reply, GetNotes(st))
    ensures !HasId(GetNotes(st), id) ==> r.reply == GetNotes(st)
    ensures UniqueIds(GetNotes(st)) ==> UniqueIds(r.reply)
    ensures forall n :: multiset(r.reply)[n] == if n.id != id then multiset(GetNotes(st))[n] else 0
    ensures GetTheme(r.store) == GetTheme(st)
  {
    var kept := RemoveId(GetNotes(st), id);
    Handled(st.(notes := Some(kept)), kept)
  }

  /** What the save dialog returned: cancelled, or a chosen destination. */
  datatype SaveDialog = DialogCancelled | DialogChose(path: string)

  /** What `fs.writeFile` does when asked: it succeeds, or throws with a message. */
  datatype WriteOutcome = WriteOk | WriteError(message: string)

  datatype FileWrite = FileWrite(path: string, data: string)

  /** The reply of `export-note`: `{success: true, path}`, `{success: false, error}` or `{success: false, cancelled: true}`. */
  datatype ExportReply = Exported(path: string) | ExportFailed(error: string) | ExportCancelled

  /** One `export-note` call: the file name offered by the dialog, the write attempted and the reply. */
  datatype Export = Export(suggested: string, attempted: Option<FileWrite>, reply: ExportReply)

  /** The dialog's default path, `${note.title || 'Untitled'}.txt`. */
  function ExportFileName(note: Note): (r: string)
    ensures |r| >= 4 && r[|r| - 4..] == ".txt"
    ensures note.title != "" ==> r[..|r| - 4] == note.title
    ensures note.title == "" ==> r == "Untitled.txt"
  {
    (if note.title == "" then "Untitled" else note.title) + ".txt"
  }

  /**
   * `export-note`, with the dialog's answer and the file system's behaviour as inputs:
   * a cancelled dialog writes nothing; otherwise the note's content is written to the
   * chosen path and the reply reports success with the path or failure with the message.
   */
  function ExportNote(note: Note, dialog: SaveDialog, write: WriteOutcome): (r: Export)
    ensures r.suggested == ExportFileName(note)
    ensures dialog.DialogCancelled? ==> r.attempted.None? && r.reply == ExportCancelled
    ensures dialog.DialogChose? ==> r.attempted == Some(FileWrite(dialog.path, note.content))
    ensures r.reply.Exported? <==> dialog.DialogChose? && write.WriteOk?
    ensures r.reply.Exported? ==> r.reply.path == dialog.path
    ensures dialog.DialogChose? && write.WriteError? ==> r.reply == ExportFailed(write.message)
  {
    var name := ExportFileName(note);
    match dialog
    case DialogCancelled => Export(name, None, ExportCancelled)
    case DialogChose(path) =>
      var reply := match write
        case WriteOk => Exported(path)
        case WriteError(msg) => ExportFailed(msg);
      Export(name, Some(FileWrite(path, note.content)), reply)
  }
}

=== FILE: notes.dfy ===
/** The Note record and the list operations the store handlers perform on a list of notes. */
module Notes {
  import opened Options
  import opened Seqs

  /** Note ids are opaque strings (`Date.now().toString(36)` plus random digits in the renderer). */
  type Id = string

  /** One note; the two timestamps are opaque ISO-8601 strings. */
  datatype Note = Note(id: Id, title: string, content: string, createdAt: string, updatedAt: string)

  predicate HasId(s: seq<Note>, id: Id) {
    exists i :: 0 <= i < |s| && s[i].id == id
  }

  /** No two entries of the list share an id. */
  predicate UniqueIds(s: seq<Note>) {
    forall i, j :: 0 <= i < j < |s| ==> s[i].id != s[j].id
  }

  /** `i` is the first position of the list holding a note with this id. */
  predicate FirstWithId(s: seq<Note>, id: Id, i: int) {
    && 0 <= i < |s|
    && s[i].id == id
    && forall j :: 0 <= j < i ==> s[j].id != id
  }

  /** `Array.prototype.findIndex(n => n.id === id)`, with `None` in place of -1. */
  function FindIndex(s: seq<Note>, id: Id): (r: Option<nat>)
    ensures r.Some? ==> FirstWithId(s, id, r.value)
    ensures r.None? <==> !HasId(s, id)
  {
    if |s| == 0 then None
    else if s[0].id == id then Some(0)
    else match FindIndex(s[1..], id)
      case Some(k) => Some(k + 1)
      case None => None
  }

  /** The `save-note` list update: overwrite the first entry with the note's id, or append the note. */
  function Upsert(s: seq<Note>, note: Note): (r: seq<Note>)
    ensures note in r
    ensures forall i :: FirstWithId(s, note.id, i) ==>
              && |r| == |s|
              && r[i] == note
              && forall j :: 0 <= j < |s| && j != i ==> r[j] == s[j]
    ensures !HasId(s, note.id) ==> |r| == |s| + 1 && r[..|s|] == s && r[|s|] == note
    ensures forall id :: HasId(r, id) <==> HasId(s, id) || id == note.id
    ensures UniqueIds(s) ==> UniqueIds(r)
  {
    match FindIndex(s, note.id)
    case Some(i) =>
      assert forall k :: FirstWithId(s, note.id, k) ==> k == i;
      assert forall id :: HasId(s[i := note], id) ==> HasId(s, id) || id == note.id by {
        forall id | HasId(s[i := note], id) ensures HasId(s, id) || id == note.id {
          var k :| 0 <= k < |s| && s[i := note][k].id == id;
        }
      }
      assert s[i := note][i] == note;
      s[i := note]
    case None =>
      assert forall id :: HasId(s + [note], id) ==> HasId(s, id) || id == note.id by {
        forall id | HasId(s + [note], id) ensures HasId(s, id) || id == note.id {
          var k :| 0 <= k < |s| + 1 && (s + [note])[k].id == id;
          if k < |s| { assert s[k].id == id; }
        }
      }
      assert forall id :: HasId(s, id) ==> HasId(s + [note], id) by {
        forall id | HasId(s, id) ensures HasId(s + [note], id) {
          var k :| 0 <= k < |s| && s[k].id == id;
          assert (s + [note])[k].id == id;
        }
      }
      assert (s + [note])[|s|] == note;
      s + [note]
  }

  /** Saving the same note twice leaves the list as saving it once. */
  lemma UpsertIdempotent(s: seq<Note>, note: Note)
    ensures Upsert(Upsert(s, note), note) == Upsert(s, note)
  {
    var r := Upsert(s, note);
    match FindIndex(s, note.id)
    case Some(i) =>
      assert FirstWithId(r, note.id, i);
    case None =>
      assert FirstWithId(r, note.id, |s|);
  }

  /** Last write wins: a save of `b` after a save of `a` with the same id erases every trace of `a`. */
  lemma UpsertLastWriteWins(s: seq<Note>, a: Note, b: Note)
    requires a.id == b.id
    ensures Upsert(Upsert(s, a), b) == Upsert(s, b)
  {
    var r := Upsert(s, a);
    match FindIndex(s, a.id)
    case Some(i) =>
      assert FirstWithId(r, b.id, i);
    case None =>
      assert FirstWithId(r, b.id, |s|);
  }

  /** A save of a note with another id leaves the head of the list alone and updates the rest. */
  lemma UpsertBehindHead(x: Note, s: seq<Note>, note: Note)
    requires x.id != note.id
    ensures Upsert([x] + s, note) == [x] + Upsert(s, note)
  {
    assert ([x] + s)[1..] == s;
    match FindIndex(s, note.id)
    case Some(k) =>
      assert FindIndex([x] + s, note.id) == Some(k + 1);
      assert ([x] + s)[k + 1 := note] == [x] + s[k := note];
    case None =>
      assert FindIndex([x] + s, note.id).None?;
      assert [x] + s + [note] == [x] + (s + [note]);
  }

  /** The `delete-note` list update: drop every entry with this id. */
  function RemoveId(s: seq<Note>, id: Id): (r: seq<Note>)
    ensures !HasId(r, id)
    ensures forall i :: 0 <= i < |s| && s[i].id != id ==> s[i] in r
    ensures forall i :: 0 <= i < |r| ==> r[i] in s
    ensures IsSubseq(r, s)
    ensures !HasId(s, id) ==> r == s
    ensures UniqueIds(s) ==> UniqueIds(r)
    ensures forall n :: multiset(r)[n] == if n.id != id then multiset(s)[n] else 0
  {
    var keep := (n: Note) => n.id != id;
    assert forall n :: multiset(Filter(s, keep))[n] == if keep(n) then multiset(s)[n] else 0 by {
      forall n ensures multiset(Filter(s, keep))[n] == if keep(n) then multiset(s)[n] else 0 {
        FilterMultiplicity(s, keep, n);
      }
    }
    FilterIsSubseq(s, keep);
    FilterAbsentId(s, id);
    FilterUniqueIds(s, id);
    Filter(s, keep)
  }

  /** Filtering out an id that no entry carries changes nothing. */
  lemma FilterAbsentId(s: seq<Note>, id: Id)
    ensures !HasId(s, id) ==> Filter(s, (n: Note) => n.id != id) == s
  {
    if !HasId(s, id) {
      FilterKeepsAll(s, (n: Note) => n.id != id);
    }
  }

  /** Removing entries from a list with unique ids keeps the ids unique. */
  lemma {:induction false} FilterUniqueIds(s: seq<Note>, id: Id)
    ensures UniqueIds(s) ==> UniqueIds(Filter(s, (n: Note) => n.id != id))
  {
    var keep := (n: Note) => n.id != id;
    if |s| > 0 && UniqueIds(s) {
      FilterUniqueIds(s[1..], id);
      var rest := Filter(s[1..], keep);
      assert Filter(s, keep) == (if keep(s[0]) then [s[0]] else []) + rest;
      forall k | 0 <= k < |rest| ensures rest[k].id != s[0].id {
        var m :| 0 <= m < |s[1..]| && s[1..][m] == rest[k];
        assert s[m + 1] == rest[k];
      }
    }
  }
}

=== FILE: notetaker.dfy ===
/**
 * The renderer's `NoteTaker` state logic: the in-memory note list, the current note, the
 * `isModified` flag and the two editor fields, together with the store the main process
 * keeps. Every persistence call goes through the `Controller` handlers; each save is atomic
 * and `ok` says whether the handler call succeeded.
 *
 * The renderer holds `currentNote` as the very object stored in `this.notes`, so saving it
 * updates the list in place. Note ids are unique, so that object is found by its id: a save
 * upserts the committed note into the in-memory list, and selecting a note whose id is the
 * current one selects the current (possibly just saved) value.
 */
module NoteTaker {
  import opened Options
  import opened Seqs
  import opened Notes
  import opened Text
  import opened Controller

  const UntitledNote: string := "Untitled Note"

  /** The editor pane: note list, current note, dirty flag, and the title and content fields. */
  datatype Editor = Editor(notes: seq<Note>, current: Option<Note>, modified: bool, titleField: string, contentField: string)

  /** The renderer together with the main process's store. */
  datatype App = App(store: Store, editor: Editor)

  /** The renderer right after construction and `loadNotes`: the stored list, no current note, empty fields. */
  function Startup(st: Store): (r: App)
    ensures r.store == st
    ensures r.editor.current.None? && !r.editor.modified
    ensures r.editor.notes == GetNotes(st)
    ensures UniqueIds(GetNotes(st)) ==> Wf(r)
  {
    App(st, Editor(GetNotes(st), None, false, "", ""))
  }

  /** The state every transition keeps: unique ids in both lists, and the current note is one of the listed notes. */
  predicate Wf(app: App) {
    && UniqueIds(app.editor.notes)
    && UniqueIds(GetNotes(app.store))
    && (app.editor.current.Some? ==> app.editor.current.value in app.editor.notes)
  }

  /** What the fresh-id oracle (`generateId`) is assumed to deliver: an id no note has yet. */
  predicate FreshId(app: App, id: Id) {
    && !HasId(app.editor.notes, id)
    && !HasId(GetNotes(app.store), id)
    && (app.editor.current.None? || app.editor.current.value.id != id)
  }

  /** The guard `this.isModified && this.currentNote` of note switching and both auto-save timers. */
  predicate Pending(app: App) {
    app.editor.modified && app.editor.current.Some?
  }

  /** `this.noteTitle.value || 'Untitled Note'`. */
  function SavedTitle(field: string): (r: string)
    ensures r != ""
    ensures field != "" ==> r == field
    ensures field == "" ==> r == UntitledNote
  {
    if field == "" then UntitledNote else field
  }

  /** `after` is `before` with the editor's fields committed by a save at time `now`. */
  predicate CommittedFrom(before: Note, after: Note, e: Editor, now: string) {
    && after.id == before.id
    && after.createdAt == before.createdAt
    && after.title == SavedTitle(e.titleField)
    && after.content == e.contentField
    && after.updatedAt == now
  }

  /** A freshly created note: empty title and content, both timestamps `now`. */
  function BlankNote(id: Id, now: string): Note {
    Note(id, "", "", now, now)
  }

  /**
   * The part of `selectNote` after its guarded save: load the note into the editor, unmodified.
   * The content goes through the textarea, whose value has its line breaks normalised.
   */
  function Load(e: Editor, note: Note): Editor {
    e.(current := Some(note), titleField := note.title, contentField := FieldText(note.content), modified := false)
  }

  /** The object the renderer passes: the current note itself when the ids agree. */
  function Resolve(e: Editor, note: Note): (r: Note)
    ensures r.id == note.id
  {
    if e.current.Some? && e.current.value.id == note.id then e.current.value else note
  }

  /**
   * `saveCurrentNote`: a no-op without a current note; otherwise the note takes the editor's
   * title (or "Untitled Note" when empty) and content and is sent to `save-note`. Only a
   * successful save clears `isModified` and reloads the fields from the saved note.
   */
  function SaveCurrentNote(app: App, now: string, ok: bool): (r: App)
    ensures app.editor.current.None? ==> r == app
    ensures app.editor.current.Some? ==> r.editor.current.Some?
    ensures app.editor.current.Some? ==> CommittedFrom(app.editor.current.value, r.editor.current.value, app.editor, now)
    ensures app.editor.current.Some? ==> r.editor.current.value in r.editor.notes
    ensures app.editor.current.Some? ==> r.editor.notes == Upsert(app.editor.notes, r.editor.current.value)
    ensures app.editor.current.Some? && ok ==>
              && !r.editor.modified
              && GetNotes(r.store) == Upsert(GetNotes(app.store), r.editor.current.value)
              && GetTheme(r.store) == GetTheme(app.store)
              && r.editor.titleField == r.editor.current.value.title
              && r.editor.contentField == FieldText(r.editor.current.value.content)
    ensures app.editor.current.Some? && !ok ==>
              && r.store == app.store
              && r.editor.modified == app.editor.modified
              && r.editor.titleField == app.editor.titleField
              && r.editor.contentField == app.editor.contentField
    ensures Wf(app) ==> Wf(r)
    ensures Wf(app) && app.editor.current.Some? ==> |r.editor.notes| == |app.editor.notes|
  {
    match app.editor.current
    case None => app
    case Some(n) =>
      var saved := n.(title := SavedTitle(app.editor.titleField), content := app.editor.contentField, updatedAt := now);
      var e := app.editor.(current := Some(saved), notes := Upsert(app.editor.notes, saved));
      if ok then App(SaveNote(app.store, saved).store, Load(e, saved))
      else App(app.store, e)
  }

  /**
   * `selectNote`: when there are unsaved edits to a current note they are saved first; then
   * the chosen note becomes current, its fields are loaded and `isModified` is cleared.
   */
  function SelectNote(app: App, note: Note, now: string, ok: bool): (r: App)
    ensures r.editor.current.Some? && r.editor.current.value.id == note.id
    ensures !r.editor.modified
    ensures r.editor.titleField == r.editor.current.value.title
    ensures r.editor.contentField == FieldText(r.editor.current.value.content)
    ensures Pending(app) ==> r.store == SaveCurrentNote(app, now, ok).store
    ensures Pending(app) ==> r.editor.notes == SaveCurrentNote(app, now, ok).editor.notes
    ensures !Pending(app) ==> r.store == app.store && r.editor.notes == app.editor.notes
    ensures (app.editor.current.None? || app.editor.current.value.id != note.id) ==> r.editor.current == Some(note)
    ensures Wf(app) && note in app.editor.notes ==> Wf(r)
  {
    var a := if Pending(app) then SaveCurrentNote(app, now, ok) else app;
    App(a.store, Load(a.editor, Resolve(a.editor, note)))
  }

  /**
   * `createNewNote`: save pending edits, put a blank note with a fresh id at the front of
   * the list and select it.
   */
  function CreateNewNote(app: App, freshId: Id, now: string, ok: bool): (r: App)
    ensures r.editor.current.Some? && r.editor.current.value.id == freshId
    ensures !r.editor.modified
    ensures var a := if Pending(app) then SaveCurrentNote(app, now, ok) else app;
            && r.store == a.store
            && (Wf(app) && FreshId(app, freshId) ==> r.editor.notes == [BlankNote(freshId, now)] + a.editor.notes)
    ensures Wf(app) && FreshId(app, freshId) ==>
              && |r.editor.notes| == |app.editor.notes| + 1
              && r.editor.current == Some(BlankNote(freshId, now))
              && r.editor.titleField == ""
              && r.editor.contentField == ""
              && Wf(r)
  {
    var a := if Pending(app) then SaveCurrentNote(app, now, ok) else app;
    var blank := BlankNote(freshId, now);
    PrependFreshKeepsWf(a, blank);
    SelectNote(App(a.store, a.editor.(notes := [blank] + a.editor.notes)), blank, now, ok)
  }

  /**
   * `deleteCurrentNote`: a no-op without a current note, without confirmation, or when the
   * `delete-note` call fails; otherwise the in-memory list becomes the store's filtered list
   * and the editor is emptied.
   */
  function DeleteCurrentNote(app: App, confirmed: bool, ok: bool): (r: App)
    ensures app.editor.current.None? || !confirmed || !ok ==> r == app
    ensures app.editor.current.Some? && confirmed && ok ==>
              && r.editor == Editor(GetNotes(r.store), None, false, "", "")
              && !HasId(r.editor.notes, app.editor.current.value.id)
              && GetNotes(r.store) == RemoveId(GetNotes(app.store), app.editor.current.value.id)
              && GetTheme(r.store) == GetTheme(app.store)
    ensures Wf(app) ==> Wf(r)
  {
    match app.editor.current
    case None => app
    case Some(n) =>
      if !confirmed || !ok then app
      else
        var h := DeleteNote(app.store, n.id);
        App(h.store, Editor(h.reply, None, false, "", ""))
  }

  /**
   * `importNote`: a note titled by the file name without its extension and holding the
   * file's content goes to the front of the list, is selected and is saved at once.
   */
  function ImportNote(app: App, fileName: string, content: string, freshId: Id, now: string, ok: bool): (r: App)
    ensures r.editor.current.Some? && r.editor.current.value.id == freshId
    ensures ok ==> !r.editor.modified && r.editor.current.value in GetNotes(r.store)
    ensures var p := if Pending(app) then SaveCurrentNote(app, now, ok) else app;
            && (ok ==> GetNotes(r.store) == Upsert(GetNotes(p.store), r.editor.current.value))
            && (!ok ==> r.store == app.store)
            && GetTheme(r.store) == GetTheme(app.store)
            && (Wf(app) && FreshId(app, freshId) ==> r.editor.notes == [r.editor.current.value] + p.editor.notes)
    ensures Wf(app) && FreshId(app, freshId) ==>
              && |r.editor.notes| == |app.editor.notes| + 1
              && r.editor.notes[0] == r.editor.current.value
              && r.editor.current.value.title == SavedTitle(StripExtension(fileName))
              && r.editor.current.value.content == FieldText(content)
              && r.editor.current.value.createdAt == now
              && Wf(r)
  {
    var imported := Note(freshId, StripExtension(fileName), content, now, now);
    var b := App(app.store, app.editor.(notes := [imported] + app.editor.notes));
    PrependFreshKeepsWf(app, imported);
    var a := SelectNote(b, imported, now, ok);
    var r := SaveCurrentNote(a, now, ok);
    SelectPrepended(app, imported, now, ok);
    SaveFront(a, now, ok);
    r
  }

  /** Saving the note at the front of the list replaces exactly that front entry. */
  lemma SaveFront(a: App, now: string, ok: bool)
    ensures var r := SaveCurrentNote(a, now, ok);
            a.editor.current.Some? && |a.editor.notes| > 0 && a.editor.notes[0].id == a.editor.current.value.id ==>
              r.editor.notes == [r.editor.current.value] + a.editor.notes[1..]
  {
    var r := SaveCurrentNote(a, now, ok);
    if a.editor.current.Some? && |a.editor.notes| > 0 && a.editor.notes[0].id == a.editor.current.value.id {
      assert FirstWithId(a.editor.notes, r.editor.current.value.id, 0);
    }
  }

  /**
   * Selecting a note just put in front of the list: pending edits of the old current note
   * are saved behind it, and the new note becomes current.
   */
  lemma SelectPrepended(app: App, x: Note, now: string, ok: bool)
    ensures var p := if Pending(app) then SaveCurrentNote(app, now, ok) else app;
            var a := SelectNote(App(app.store, app.editor.(notes := [x] + app.editor.notes)), x, now, ok);
            && a.store == p.store
            && (Wf(app) && FreshId(app, x.id) ==> a.editor.current == Some(x) && a.editor.notes == [x] + p.editor.notes)
  {
    var b := App(app.store, app.editor.(notes := [x] + app.editor.notes));
    if Wf(app) && FreshId(app, x.id) && Pending(app) {
      UpsertBehindHead(x, app.editor.notes, SaveCurrentNote(b, now, ok).editor.current.value);
    }
  }

  /**
   * `onContentChange` after the user typed: the fields hold the new text, the content as the
   * textarea reports it, and the note is marked modified.
   */
  function EditNote(app: App, title: string, content: string): (r: App)
    ensures r.editor.modified
    ensures r.editor.titleField == title && r.editor.contentField == FieldText(content)
    ensures r.editor.current == app.editor.current && r.editor.notes == app.editor.notes
    ensures r.store == app.store
    ensures Wf(app) ==> Wf(r)
  {
    App(app.store, app.editor.(titleField := title, contentField := FieldText(content), modified := true))
  }

  /** The debounce callback and the periodic callback alike: save only when there are pending edits. */
  function AutoSave(app: App, now: string, ok: bool): (r: App)
    ensures !Pending(app) ==> r == app
    ensures Pending(app) ==> r == SaveCurrentNote(app, now, ok)
    ensures Pending(app) && ok ==> !r.editor.modified
    ensures Wf(app) ==> Wf(r)
  {
    if app.editor.modified && app.editor.current.Some? then SaveCurrentNote(app, now, ok) else app
  }

  /** The search test of `filterNotes`: the lower-cased title or content contains the lower-cased term. */
  predicate Matches(note: Note, term: string) {
    Contains(Lower(note.title), Lower(term)) || Contains(Lower(note.content), Lower(term))
  }

  /** `filterNotes`: the notes to show for a search term; the note list itself is not changed. */
  function FilterNotes(e: Editor, term: string): (r: seq<Note>)
    ensures forall i :: 0 <= i < |r| ==> r[i] in e.notes && Matches(r[i], term)
    ensures forall i :: 0 <= i < |e.notes| && Matches(e.notes[i], term) ==> e.notes[i] in r
    ensures IsSubseq(r, e.notes)
    ensures term == "" ==> r == e.notes
    ensures forall n :: multiset(r)[n] == if Matches(n, term) then multiset(e.notes)[n] else 0
  {
    FilterIsSubseq(e.notes, (n: Note) => Matches(n, term));
    SearchKeepsCopies(e.notes, term);
    if term == "" then EmptySearchKeepsAll(e.notes); Filter(e.notes, (n: Note) => Matches(n, term))
    else Filter(e.notes, (n: Note) => Matches(n, term))
  }

  /** The search keeps every copy of a matching note and no copy of any other. */
  lemma SearchKeepsCopies(notes: seq<Note>, term: string)
    ensures forall n :: multiset(Filter(notes, (n: Note) => Matches(n, term)))[n] == if Matches(n, term) then multiset(notes)[n] else 0
  {
    forall n ensures multiset(Filter(notes, (n: Note) => Matches(n, term)))[n] == if Matches(n, term) then multiset(notes)[n] else 0 {
      FilterMultiplicity(notes, (n: Note) => Matches(n, term), n);
    }
  }

  /** Every note matches the empty term, since the empty string occurs at the start of any text. */
  lemma EmptySearchKeepsAll(notes: seq<Note>)
    ensures Filter(notes, (n: Note) => Matches(n, "")) == notes
  {
    assert forall i :: 0 <= i < |notes| ==> OccursAt(Lower(notes[i].title), Lower(""), 0);
    FilterKeepsAll(notes, (n: Note) => Matches(n, ""));
  }

  /** The two lines `updateStats` shows under the editor. */
  datatype StatsLine = StatsLine(words: nat, chars: nat, wordLabel: string, charLabel: string)

  /**
   * `updateStats`: words are the maximal runs of non-whitespace (none for blank text),
   * characters are UTF-16 code units, and each label is plural unless its count is one.
   */
  function UpdateStats(content: string): (r: StatsLine)
    ensures r.words == Runs(content, NotSpace)
    ensures r.chars == Utf16Length(content)
    ensures r.wordLabel == CountLabel(r.words, "word")
    ensures r.charLabel == CountLabel(r.chars, "character")
  {
    var words := WordCount(content);
    var chars := Utf16Length(content);
    StatsLine(words, chars, CountLabel(words, "word"), CountLabel(chars, "character"))
  }

  /** `exportCurrentNote`: without a current note nothing happens; otherwise the in-memory note (not the unsaved fields) is exported. */
  function ExportCurrentNote(app: App, dialog: SaveDialog, write: WriteOutcome): (r: Option<Export>)
    ensures r.None? <==> app.editor.current.None?
    ensures r.Some? ==> (r.value.reply.Exported? <==> dialog.DialogChose? && write.WriteOk?)
    ensures r.Some? && dialog.DialogChose? ==> r.value.attempted == Some(FileWrite(dialog.path, app.editor.current.value.content))
    ensures r.Some? ==> r.value.suggested == ExportFileName(app.editor.current.value)
    ensures r.Some? && dialog.DialogChose? && write.WriteError? ==> r.value.reply == ExportFailed(write.message)
  {
    match app.editor.current
    case None => None
    case Some(n) => Some(ExportNote(n, dialog, write))
  }

  /** Putting a note with an id the list lacks in front of the list keeps the state well formed. */
  lemma PrependFreshKeepsWf(a: App, note: Note)
    ensures Wf(a) && !HasId(a.editor.notes, note.id) ==> Wf(App(a.store, a.editor.(notes := [note] + a.editor.notes)))
  {
    if Wf(a) && !HasId(a.editor.notes, note.id) {
      var l := [note] + a.editor.notes;
      forall i, j | 0 <= i < j < |l| ensures l[i].id != l[j].id {
        if i == 0 {
          assert l[j] == a.editor.notes[j - 1];
        } else {
          assert l[i] == a.editor.notes[i - 1] && l[j] == a.editor.notes[j - 1];
        }
      }
    }
  }

  /**
   * An edit followed by a successful timer callback persists exactly the edited text, and a
   * further callback without new edits saves nothing.
   */
  lemma EditThenAutoSave(app: App, title: string, content: string, now: string, later: string, ok: bool)
    requires app.editor.current.Some?
    ensures var r := AutoSave(EditNote(app, title, content), now, true);
            && !r.editor.modified
            && r.editor.current.value.id == app.editor.current.value.id
            && r.editor.current.value.title == SavedTitle(title)
            && r.editor.current.value.content == FieldText(content)
            && r.editor.current.value in GetNotes(r.store)
            && AutoSave(r, later, ok) == r
  {
  }

  /** Saving a note whose title field is empty stores it as "Untitled Note" with its content kept. */
  lemma SaveUntitledScenario(created: string, now: string)
    ensures var n := Note("a", "", "hi", created, created);
            var app := App(EmptyStore, Editor([n], Some(n), true, "", "hi"));
            var r := SaveCurrentNote(app, now, true);
            GetNotes(r.store) == [Note("a", "Untitled Note", "hi", created, now)]
  {
  }

  /** Importing "draft.md" into an empty application stores a note titled "draft" holding the file's text. */
  lemma ImportDraftScenario(content: string, id: Id, now: string)
    ensures var r := ImportNote(App(EmptyStore, Editor([], None, false, "", "")), "draft.md", content, id, now, true);
            GetNotes(r.store) == [Note(id, "draft", FieldText(content), now, now)]
  {
    StripExtensionExamples();
  }

  /** A file with Windows line breaks is stored with LF line breaks, as the textarea reports it. */
  lemma ImportWindowsTextScenario(id: Id, now: string)
    ensures var r := ImportNote(App(EmptyStore, Editor([], None, false, "", "")), "draft.md", "a\r\nb", id, now, true);
            GetNotes(r.store) == [Note(id, "draft", "a\nb", now, now)]
  {
    ImportDraftScenario("a\r\nb", id, now);
    FieldTextExamples();
  }
}

=== FILE: options.dfy ===
/** An optional value, standing in for JavaScript's `undefined`/`null` and for a missing store key. */
module Options {

  datatype Option<+T> = None | Some(value: T)
}

=== FILE: seqs.dfy ===
/** Sequence helpers shared by the store handlers and the renderer: `Array.prototype.filter` and order preservation. */
module Seqs {

  /** `r` can be obtained from `s` by deleting elements: the survivors keep their relative order. */
  predicate IsSubseq<T(==)>(r: seq<T>, s: seq<T>)
    decreases |s|
  {
    |r| == 0 || (|s| > 0 && ((r[0] == s[0] && IsSubseq(r[1..], s[1..])) || IsSubseq(r, s[1..])))
  }

  /** `Array.prototype.filter`: the elements of `s` that `keep` accepts, in their original order. */
  function Filter<T(==)>(s: seq<T>, keep: T -> bool): (r: seq<T>)
    ensures |r| <= |s|
    ensures forall i :: 0 <= i < |r| ==> r[i] in s && keep(r[i])
    ensures forall i :: 0 <= i < |s| && keep(s[i]) ==> s[i] in r
  {
    if |s| == 0 then [] else (if keep(s[0]) then [s[0]] else []) + Filter(s[1..], keep)
  }

  /** Filtering only deletes elements; it never reorders them. */
  lemma {:induction false} FilterIsSubseq<T>(s: seq<T>, keep: T -> bool)
    ensures IsSubseq(Filter(s, keep), s)
  {
    if |s| > 0 {
      FilterIsSubseq(s[1..], keep);
      var rest := Filter(s[1..], keep);
      if keep(s[0]) {
        assert Filter(s, keep) == [s[0]] + rest;
        assert ([s[0]] + rest)[1..] == rest;
      } else {
        assert Filter(s, keep) == rest;
      }
    }
  }

  /** When every element is accepted the filter returns its input unchanged. */
  lemma {:induction false} FilterKeepsAll<T>(s: seq<T>, keep: T -> bool)
    requires forall i :: 0 <= i < |s| ==> keep(s[i])
    ensures Filter(s, keep) == s
  {
    if |s| > 0 {
      FilterKeepsAll(s[1..], keep);
      assert [s[0]] + s[1..] == s;
    }
  }

  /** Filtering keeps every copy of an accepted element and no copy of a rejected one. */
  lemma {:induction false} FilterMultiplicity<T>(s: seq<T>, keep: T -> bool, x: T)
    ensures multiset(Filter(s, keep))[x] == if keep(x) then multiset(s)[x] else 0
  {
    if |s| > 0 {
      FilterMultiplicity(s[1..], keep, x);
      assert s == [s[0]] + s[1..];
      assert Filter(s, keep) == (if keep(s[0]) then [s[0]] else []) + Filter(s[1..], keep);
    }
  }
}

=== FILE: text.dfy ===
/**
 * The string helpers the renderer relies on: JavaScript's whitespace class, `trim`,
 * `split(/\s+/)`, `length` in UTF-16 code units, `toLowerCase`, `includes`, the
 * extension-stripping `replace(/\.[^/.]+$/, "")` and number-to-decimal conversion.
 */
module Text {
  import opened Options

  /** JavaScript's `\s`, which is also exactly the set `String.prototype.trim` removes. */
  predicate IsSpace(c: char) {
    || c == '\t' || c == '\n' || c == '\U{000B}' || c == '\U{000C}' || c == '\r' || c == ' '
    || c == '\U{00A0}' || c == '\U{1680}' || ('\U{2000}' <= c <= '\U{200A}')
    || c == '\U{2028}' || c == '\U{2029}' || c == '\U{202F}' || c == '\U{205F}'
    || c == '\U{3000}' || c == '\U{FEFF}'
  }

  predicate NotSpace(c: char) {
    !IsSpace(c)
  }

  /** The suffix left after dropping the longest prefix whose characters satisfy `p`. */
  function DropWhile(s: string, p: char -> bool): (r: string)
    ensures |r| <= |s|
    ensures r == s[|s| - |r|..]
    ensures forall i :: 0 <= i < |s| - |r| ==> p(s[i])
    ensures |r| > 0 ==> !p(r[0])
    ensures |s| > 0 && p(s[0]) ==> |r| < |s|
  {
    if |s| > 0 && p(s[0]) then
      var r := DropWhile(s[1..], p);
      assert s[1..][|s| - 1 - |r|..] == s[|s| - |r|..];
      assert forall i :: 1 <= i < |s| - |r| ==> s[i] == s[1..][i - 1];
      r
    else s
  }

  /** The number of maximal runs of consecutive characters satisfying `p`. */
  function Runs(s: string, p: char -> bool): nat
    decreases |s|
  {
    if |s| == 0 then 0
    else if p(s[0]) then 1 + Runs(DropWhile(s, p), p)
    else Runs(s[1..], p)
  }

  /** `String.prototype.trim`: drop leading and trailing whitespace. */
  function Trim(s: string): (r: string)
    ensures |r| > 0 ==> NotSpace(r[0]) && NotSpace(r[|r| - 1])
    ensures exists i, j :: TrimmedAt(s, r, i, j)
  {
    var d := DropWhile(s, IsSpace);
    Window(s, d, TrimEnd(d));
    TrimEnd(d)
  }

  /** A whitespace-bounded prefix of a whitespace-bounded suffix of `s` is a trimmed window of `s`. */
  lemma Window(s: string, d: string, r: string)
    requires |d| <= |s| && d == s[|s| - |d|..]
    requires forall k :: 0 <= k < |s| - |d| ==> IsSpace(s[k])
    requires |r| <= |d| && r == d[..|r|]
    requires forall k :: |r| <= k < |d| ==> IsSpace(d[k])
    ensures TrimmedAt(s, r, |s| - |d|, |s| - |d| + |r|)
  {
    forall k | |s| - |d| + |r| <= k < |s| ensures IsSpace(s[k]) {
      assert s[k] == d[k - (|s| - |d|)];
    }
  }

  /** `r` is `s[i..j]`, and everything of `s` outside that window is whitespace. */
  predicate TrimmedAt(s: string, r: string, i: int, j: int) {
    && 0 <= i <= j <= |s| && r == s[i..j]
    && (forall k :: 0 <= k < i ==> IsSpace(s[k]))
    && (forall k :: j <= k < |s| ==> IsSpace(s[k]))
  }

  function TrimEnd(s: string): (r: string)
    ensures |r| <= |s|
    ensures r == s[..|r|]
    ensures forall i :: |r| <= i < |s| ==> IsSpace(s[i])
    ensures |r| > 0 ==> NotSpace(r[|r| - 1])
  {
    if |s| > 0 && IsSpace(s[|s| - 1]) then TrimEnd(s[..|s| - 1]) else s
  }

  /**
   * `t.split(/\s+/)` written out: every maximal whitespace run ends the piece being
   * collected in `piece` and starts a new one, so there is one more piece than runs.
   */
  function SplitFrom(t: string, piece: string): (r: seq<string>)
    ensures |r| == 1 + Runs(t, IsSpace)
    decreases |t|
  {
    if |t| == 0 then [piece]
    else if IsSpace(t[0]) then [piece] + SplitFrom(DropWhile(t, IsSpace), "")
    else SplitFrom(t[1..], piece + [t[0]])
  }

  function SplitOnSpaces(t: string): seq<string> {
    SplitFrom(t, "")
  }

  /**
   * The renderer's word count, `s.trim() ? s.trim().split(/\s+/).length : 0`: the number
   * of maximal runs of non-whitespace characters, and 0 exactly for blank text.
   */
  function WordCount(s: string): (r: nat)
    ensures r == Runs(s, NotSpace)
    ensures r == 0 <==> forall i :: 0 <= i < |s| ==> IsSpace(s[i])
  {
    var t := Trim(s);
    RunsOfTrim(s);
    NoRunsIffNone(s, NotSpace);
    if |t| == 0 then 0
    else
      SpaceRunsBetweenWords(t);
      |SplitOnSpaces(t)|
  }

  /** Dropping a prefix of characters that cannot start a `p`-run leaves the `p`-runs unchanged. */
  lemma {:induction false} RunsAfterSkip(s: string, p: char -> bool, q: char -> bool)
    requires forall i :: 0 <= i < |s| && q(s[i]) ==> !p(s[i])
    ensures Runs(DropWhile(s, q), p) == Runs(s, p)
    decreases |s|
  {
    if |s| > 0 && q(s[0]) {
      assert DropWhile(s, q) == DropWhile(s[1..], q);
      RunsAfterSkip(s[1..], p, q);
    }
  }

  lemma {:induction false} DropWhileAppend(t: string, c: char, p: char -> bool)
    requires !p(c)
    ensures DropWhile(t + [c], p) == DropWhile(t, p) + [c]
    decreases |t|
  {
    if |t| > 0 && p(t[0]) {
      assert (t + [c])[1..] == t[1..] + [c];
      DropWhileAppend(t[1..], c, p);
    } else if |t| == 0 {
      assert t + [c] == [c];
    }
  }

  /** Appending a character that is not in `p` does not change the number of `p`-runs. */
  lemma {:induction false} RunsAppend(t: string, c: char, p: char -> bool)
    requires !p(c)
    ensures Runs(t + [c], p) == Runs(t, p)
    decreases |t|
  {
    if |t| == 0 {
      assert t + [c] == [c];
      assert Runs([c], p) == Runs([], p);
    } else if p(t[0]) {
      assert (t + [c])[0] == t[0];
      DropWhileAppend(t, c, p);
      assert Runs(t + [c], p) == 1 + Runs(DropWhile(t, p) + [c], p);
      RunsAppend(DropWhile(t, p), c, p);
    } else {
      assert (t + [c])[0] == t[0];
      assert (t + [c])[1..] == t[1..] + [c];
      RunsAppend(t[1..], c, p);
    }
  }

  lemma {:induction false} RunsOfTrimEnd(s: string)
    ensures Runs(TrimEnd(s), NotSpace) == Runs(s, NotSpace)
    decreases |s|
  {
    if |s| > 0 && IsSpace(s[|s| - 1]) {
      var init := s[..|s| - 1];
      assert s == init + [s[|s| - 1]];
      RunsAppend(init, s[|s| - 1], NotSpace);
      RunsOfTrimEnd(init);
    }
  }

  /** Trimming never adds or removes a word. */
  lemma RunsOfTrim(s: string)
    ensures Runs(Trim(s), NotSpace) == Runs(s, NotSpace)
  {
    RunsAfterSkip(s, NotSpace, IsSpace);
    RunsOfTrimEnd(DropWhile(s, IsSpace));
  }

  /** In text that starts and ends with a word, the words outnumber the gaps between them by one. */
  lemma {:induction false} SpaceRunsBetweenWords(t: string)
    requires |t| > 0 && NotSpace(t[0]) && NotSpace(t[|t| - 1])
    ensures Runs(t, IsSpace) + 1 == Runs(t, NotSpace)
    decreases |t|
  {
    var rest := DropWhile(t, NotSpace);
    RunsAfterSkip(t, IsSpace, NotSpace);
    if |rest| > 0 {
      assert rest[|rest| - 1] == t[|t| - 1];
      var rest2 := DropWhile(rest, IsSpace);
      assert |rest2| > 0;
      assert rest2[|rest2| - 1] == t[|t| - 1];
      RunsAfterSkip(rest, NotSpace, IsSpace);
      SpaceRunsBetweenWords(rest2);
    }
  }

  /** A string has no `p`-run exactly when none of its characters satisfies `p`. */
  lemma {:induction false} NoRunsIffNone(s: string, p: char -> bool)
    ensures Runs(s, p) == 0 <==> forall i :: 0 <= i < |s| ==> !p(s[i])
    decreases |s|
  {
    if |s| > 0 {
      NoRunsIffNone(s[1..], p);
      if !p(s[0]) {
        assert forall i :: 1 <= i < |s| ==> s[i] == s[1..][i - 1];
      }
    }
  }

  /** `String.prototype.length`: characters outside the Basic Multilingual Plane take two UTF-16 code units. */
  function Utf16Length(s: string): (r: nat)
    ensures r == |Utf16Encode(s)|
    ensures |s| <= r <= 2 * |s|
    ensures r == |s| <==> forall i :: 0 <= i < |s| ==> s[i] < '\U{10000}'
  {
    if |s| == 0 then 0
    else (if s[0] < '\U{10000}' then 1 else 2) + Utf16Length(s[1..])
  }

  /**
   * The UTF-16 code units JavaScript stores for a string: a character of the Basic
   * Multilingual Plane is one unit, any other character a high and a low surrogate.
   */
  function Utf16Encode(s: string): (r: seq<int>)
    ensures forall k :: 0 <= k < |r| ==> 0 <= r[k] < 0x1_0000
  {
    if |s| == 0 then []
    else
      var c := s[0] as int;
      (if c < 0x1_0000 then [c] else [0xD800 + (c - 0x1_0000) / 0x400, 0xDC00 + (c - 0x1_0000) % 0x400])
      + Utf16Encode(s[1..])
  }

  /** Reads code units back into characters; a surrogate without its partner is an error. */
  function Utf16Decode(u: seq<int>): (r: Option<string>)
    ensures r.Some? ==> |r.value| <= |u|
  {
    if |u| == 0 then Some("")
    else if 0xD800 <= u[0] < 0xDC00 && |u| > 1 && 0xDC00 <= u[1] < 0xE000 then
      var c := 0x1_0000 + (u[0] - 0xD800) * 0x400 + (u[1] - 0xDC00);
      match Utf16Decode(u[2..])
      case Some(t) => Some([c as char] + t)
      case None => None
    else if 0 <= u[0] < 0xD800 || 0xE000 <= u[0] < 0x1_0000 then
      match Utf16Decode(u[1..])
      case Some(t) => Some([u[0] as char] + t)
      case None => None
    else None
  }

  /** The code units of a string decode back to that string. */
  lemma {:induction false} Utf16RoundTrip(s: string)
    ensures Utf16Decode(Utf16Encode(s)) == Some(s)
  {
    if |s| > 0 {
      Utf16RoundTrip(s[1..]);
      var c := s[0] as int;
      var u := Utf16Encode(s);
      if c < 0x1_0000 {
        assert u[1..] == Utf16Encode(s[1..]);
      } else {
        var hi := 0xD800 + (c - 0x1_0000) / 0x400;
        var lo := 0xDC00 + (c - 0x1_0000) % 0x400;
        assert u[0] == hi && u[1] == lo;
        assert u[2..] == Utf16Encode(s[1..]);
        assert 0x1_0000 + (hi - 0xD800) * 0x400 + (lo - 0xDC00) == c;
      }
      assert s == [s[0]] + s[1..];
    }
  }

  /**
   * The value a `<textarea>` reports for text put into it: line breaks are normalised, so
   * every CR LF pair and every lone CR becomes one LF.
   */
  function FieldText(s: string): (r: string)
    ensures |r| <= |s|
    ensures forall i :: 0 <= i < |r| ==> r[i] != '\r'
    ensures (forall i :: 0 <= i < |s| ==> s[i] != '\r') ==> r == s
  {
    if |s| == 0 then ""
    else if s[0] == '\r' then "\n" + FieldText(if |s| > 1 && s[1] == '\n' then s[2..] else s[1..])
    else [s[0]] + FieldText(s[1..])
  }

  /** A CR LF pair, a lone CR and any other single character, as the field reports them. */
  lemma FieldTextUnits(c: char)
    ensures FieldText("\r\n") == "\n"
    ensures FieldText("\r") == "\n"
    ensures c != '\r' ==> FieldText([c]) == [c]
  {
  }

  /**
   * Normalisation works piece by piece: text can be cut anywhere except between the CR and
   * the LF of a pair. With `FieldTextUnits` this fixes the result for every input.
   */
  lemma {:induction false} FieldTextAppend(a: string, b: string)
    requires |a| == 0 || a[|a| - 1] != '\r' || |b| == 0 || b[0] != '\n'
    ensures FieldText(a + b) == FieldText(a) + FieldText(b)
    decreases |a|
  {
    if |a| == 0 {
      assert a + b == b;
    } else if a[0] != '\r' {
      FieldTextAppendPlain(a, b);
    } else if |a| > 1 && a[1] == '\n' {
      FieldTextAppendPair(a, b);
    } else {
      FieldTextAppendLoneCR(a, b);
    }
  }

  /** `FieldTextAppend` when `a` starts with a character other than CR. */
  lemma {:induction false} FieldTextAppendPlain(a: string, b: string)
    requires |a| > 0 && a[0] != '\r'
    requires a[|a| - 1] != '\r' || |b| == 0 || b[0] != '\n'
    ensures FieldText(a + b) == FieldText(a) + FieldText(b)
    decreases |a|, 0
  {
    assert (a + b)[0] == a[0] && (a + b)[1..] == a[1..] + b;
    FieldTextAppend(a[1..], b);
  }

  /** `FieldTextAppend` when `a` starts with a CR LF pair. */
  lemma {:induction false} FieldTextAppendPair(a: string, b: string)
    requires |a| > 1 && a[0] == '\r' && a[1] == '\n'
    requires a[|a| - 1] != '\r' || |b| == 0 || b[0] != '\n'
    ensures FieldText(a + b) == FieldText(a) + FieldText(b)
    decreases |a|, 0
  {
    assert (a + b)[0] == '\r' && (a + b)[1] == '\n' && (a + b)[2..] == a[2..] + b;
    FieldTextAppend(a[2..], b);
  }

  /** `FieldTextAppend` when `a` starts with a CR that no LF follows. */
  lemma {:induction false} FieldTextAppendLoneCR(a: string, b: string)
    requires |a| > 0 && a[0] == '\r' && (|a| == 1 || a[1] != '\n')
    requires a[|a| - 1] != '\r' || |b| == 0 || b[0] != '\n'
    ensures FieldText(a + b) == FieldText(a) + FieldText(b)
    decreases |a|, 0
  {
    assert (a + b)[0] == '\r' && (a + b)[1..] == a[1..] + b;
    if |a| > 1 {
      assert (a + b)[1] == a[1];
    }
    FieldTextAppend(a[1..], b);
  }

  /** Putting a field's own value back into it changes nothing. */
  lemma FieldTextIdempotent(s: string)
    ensures FieldText(FieldText(s)) == FieldText(s)
  {
  }

  /** Windows, old Mac and Unix line breaks all read back as LF. */
  lemma FieldTextExamples()
    ensures FieldText("a\r\nb") == "a\nb"
    ensures FieldText("a\rb") == "a\nb"
    ensures FieldText("a\r\r\nb") == "a\n\nb"
    ensures FieldText("a\nb") == "a\nb"
  {
  }

  /** `toLowerCase` restricted to ASCII letters. */
  function LowerChar(c: char): char {
    if 'A' <= c <= 'Z' then (c as int - 'A' as int + 'a' as int) as char else c
  }

  function Lower(s: string): (r: string)
    ensures |r| == |s|
    ensures forall i :: 0 <= i < |s| ==> r[i] == LowerChar(s[i])
  {
    seq(|s|, i requires 0 <= i < |s| => LowerChar(s[i]))
  }

  /** `needle` occurs in `s` starting at position `i`. */
  predicate OccursAt(s: string, needle: string, i: int) {
    0 <= i && i + |needle| <= |s| && s[i..i + |needle|] == needle
  }

  /** `String.prototype.includes`: some position of `s` starts an occurrence of `needle`. */
  function Contains(s: string, needle: string): (r: bool)
    ensures r <==> exists i :: OccursAt(s, needle, i)
    decreases |s|
  {
    if OccursAt(s, needle, 0) then true
    else if |s| == 0 then false
    else
      ContainsShift(s, needle);
      Contains(s[1..], needle)
  }

  /** An occurrence past the first position is an occurrence in the tail. */
  lemma ContainsShift(s: string, needle: string)
    requires |s| > 0 && !OccursAt(s, needle, 0)
    ensures (exists i :: OccursAt(s, needle, i)) <==> (exists i :: OccursAt(s[1..], needle, i))
  {
    if i :| OccursAt(s, needle, i) {
      assert s[1..][i - 1..i - 1 + |needle|] == s[i..i + |needle|];
      assert OccursAt(s[1..], needle, i - 1);
    }
    if i :| OccursAt(s[1..], needle, i) {
      assert s[1..][i..i + |needle|] == s[i + 1..i + 1 + |needle|];
      assert OccursAt(s, needle, i + 1);
    }
  }

  /**
   * Position `i` starts a match of `/\.[^/.]+$/`: a dot followed by at least one
   * character, none of them a dot or a slash, up to the end of the string.
   */
  predicate ExtensionAt(s: string, i: int) {
    && 0 <= i < |s| - 1
    && s[i] == '.'
    && forall j :: i < j < |s| ==> s[j] != '.' && s[j] != '/'
  }

  /** Where the match of `/\.[^/.]+$/` starts, if the string has one (it has at most one). */
  function ExtensionStart(s: string): (r: Option<nat>)
    ensures r.Some? ==> ExtensionAt(s, r.value)
    ensures r.None? ==> forall i :: !ExtensionAt(s, i)
    decreases |s|
  {
    if |s| < 2 || s[|s| - 1] == '.' || s[|s| - 1] == '/' then None
    else if s[|s| - 2] == '.' then Some(|s| - 2)
    else
      var init := s[..|s| - 1];
      assert forall i :: ExtensionAt(s, i) && i != |s| - 2 ==> ExtensionAt(init, i);
      match ExtensionStart(init)
      case Some(k) => Some(k)
      case None => None
  }

  /**
   * The import title, `fileName.replace(/\.[^/.]+$/, "")`: the final extension is cut
   * off when there is one, otherwise the name is returned unchanged.
   */
  function StripExtension(name: string): (r: string)
    ensures forall i :: ExtensionAt(name, i) ==> r == name[..i]
    ensures (forall i :: !ExtensionAt(name, i)) ==> r == name
  {
    match ExtensionStart(name)
    case Some(i) =>
      assert forall k :: ExtensionAt(name, k) ==> k == i;
      name[..i]
    case None => name
  }

  /** The examples the renderer's regular expression is meant for. */
  lemma StripExtensionExamples()
    ensures StripExtension("draft.md") == "draft"
    ensures StripExtension("a.b.c") == "a.b"
    ensures StripExtension("noext") == "noext"
    ensures StripExtension("file.") == "file."
    ensures StripExtension("dir.d/readme") == "dir.d/readme"
    ensures StripExtension(".bashrc") == ""
  {
    assert ExtensionAt("draft.md", 5);
    assert ExtensionAt("a.b.c", 3);
    assert ExtensionAt(".bashrc", 0);
    assert forall i :: !ExtensionAt("noext", i) by {
      forall i | 0 <= i < 4 ensures "noext"[i] != '.' { }
    }
    assert "dir.d/readme"[5] == '/';
  }

  function DigitChar(d: nat): (c: char)
    requires d < 10
    ensures '0' <= c <= '9'
  {
    (d + '0' as int) as char
  }

  /** A number as JavaScript prints a non-negative integer: decimal digits without leading zeros. */
  function Decimal(n: nat): (r: string)
    ensures |r| >= 1
    ensures forall i :: 0 <= i < |r| ==> '0' <= r[i] <= '9'
    ensures r[0] == '0' ==> n == 0
    decreases n
  {
    if n < 10 then [DigitChar(n)] else Decimal(n / 10) + [DigitChar(n % 10)]
  }

  /** Reading a digit string back as a number, most significant digit first. */
  function ParseDecimal(s: string): nat
    requires forall i :: 0 <= i < |s| ==> '0' <= s[i] <= '9'
  {
    if |s| == 0 then 0 else 10 * ParseDecimal(s[..|s| - 1]) + (s[|s| - 1] as int - '0' as int)
  }

  /** Printing loses nothing: the decimal string reads back as the same number. */
  lemma {:induction false} DecimalRoundTrip(n: nat)
    ensures ParseDecimal(Decimal(n)) == n
    decreases n
  {
    if n >= 10 {
      DecimalRoundTrip(n / 10);
      var d := Decimal(n);
      assert d[..|d| - 1] == Decimal(n / 10);
    }
  }

  /** The stats label, `${n} ${noun}${n !== 1 ? 's' : ''}`: plural unless the count is exactly one. */
  function CountLabel(n: nat, noun: string): (r: string)
    ensures |r| >= |Decimal(n)| + 1 + |noun|
    ensures r[..|Decimal(n)|] == Decimal(n)
    ensures n == 1 ==> r == "1 " + noun
    ensures n != 1 ==> |r| == |Decimal(n)| + |noun| + 2 && r[|r| - 1] == 's'
    ensures r[|Decimal(n)|..|Decimal(n)| + 1 + |noun|] == " " + noun
  {
    Decimal(n) + " " + noun + (if n != 1 then "s" else "")
  }
}
